=== FILE: README.md ===
# Inno landing site: the logic behind the pages, in Dafny

The Inno landing site is a bilingual (English/Arabic) single-page brochure.
Most of it is markup, styling and animation. This project models the part
that has behaviour, and proves what that behaviour guarantees:

- **Language context** (`language.dfy`, module `Language`). This covers the
  two-language state, the toggle, the translation lookup `t` with its
  fall-back to the key, the `lang`/`dir` attributes written to the document
  root, and the guard of `useLanguage`.
- **Line splitter** (`line_split.dfy`, module `LineSplit`). This is the
  contact section's greedy wrapping of a paragraph into lines. Text
  measurement belongs to the browser, so it is a parameter
  `width: string -> nat`: the width of a line is the width of its text
  content.
- **Contact form** (`contact_form.dfy`, module `ContactForm`). This covers
  the `handleChange` and `handleSubmit` updates of the form's three fields.
- **Header** (`header.dfy`, module `Header`). This covers per-character
  splitting of the menu links, the scroll flag behind the header background,
  the menu toggle driven by the animation timeline, and the
  hovered-entry-to-background-image mapping.
- **Tech stack** (`tech_stack.dfy`, module `TechStack`). This covers the
  edge fades, the duplicated client list, the even/odd desktop columns, and
  the mobile marquee, whose direction follows the language.
- `wrappers.dfy` (module `Wrappers`) holds the shared `Option` and `Result`
  types.

The translation tables hold only ten keys (header, menu, hero and about).
The keys the contact, works and footer sections ask for are in neither
table, so `t` shows them verbatim in both languages; the model proves this
for the contact section's keys (`Language.ContactKeysShownVerbatim`).

## Model

| member | source | states |
|---|---|---|
| `Language.Code` | contexts/language-context.tsx:13 | The code of a language reads back to the same language: only "en" and "ar" are language codes. |
| `Language.Init` | contexts/language-context.tsx:58-59 | The provider starts in English and is not transitioning. |
| `Language.Toggle` | contexts/language-context.tsx:61-63 | The toggle always switches to the other language: "en" becomes "ar" and anything else becomes "en". |
| `Language.ToggleInvolutive` | contexts/language-context.tsx:61-63 | Toggling twice restores the language. |
| `Language.ToggleLanguage` | contexts/language-context.tsx:61-63 | `toggleLanguage` changes the language and nothing else. |
| `Language.ReachableStates` | contexts/language-context.tsx:58-63 | After n toggles the language is English when n is even and Arabic when n is odd, and `isTransitioning` is false in every reachable state. |
| `Language.Lookup` | contexts/language-context.tsx:67 | Indexing an object literal also finds the members every object inherits (`constructor`, `toString`, `__proto__`, …). So `t` yields an inherited member exactly when the key is not in the table but is one of those names. Otherwise it yields the key or the table's value. A present, non-empty value always wins, and a text result is empty only for an empty key. |
| `Language.TranslateHitsExactlyTheKeys` | contexts/language-context.tsx:26-67 | Every value in both tables is non-empty. So `t` returns the table's value for a key in the table, an inherited member for an inherited name outside it, and the key itself for every other key. |
| `Language.SameKeys` | contexts/language-context.tsx:26-55 | The English and Arabic tables define the same set of keys. |
| `Language.HitIndependentOfLanguage` | contexts/language-context.tsx:26-67 | A key falls back to itself in English exactly when it does in Arabic, and it hits an inherited member in English exactly when it does in Arabic. |
| `Language.ContactKeysShownVerbatim` | components/contact.tsx:245-540 | Every key the contact section asks for is displayed verbatim in both languages, because neither table has it and none is an inherited member name. |
| `Language.LanguageEffect` | contexts/language-context.tsx:72-75 | `dir` is "rtl" exactly when the language is Arabic and "ltr" otherwise. `lang` is the language's code. |
| `Language.DirectionFlipsWithToggle` | contexts/language-context.tsx:61-75 | Toggling the language always flips the document direction. |
| `Language.UseLanguage` | contexts/language-context.tsx:89-95 | Outside a provider the hook fails with the guard's message. Inside one it returns the provider's value unchanged. |
| `LineSplit.Split` | components/contact.tsx:18 | `split(" ")` yields at least one word, and no word contains a space. |
| `LineSplit.JoinSplit` | components/contact.tsx:18 | Joining the words of a split with single spaces gives back the text. |
| `LineSplit.SplitJoin` | components/contact.tsx:18 | Splitting space-free words joined by single spaces gives back the words. |
| `LineSplit.SpansRestoreText` | components/contact.tsx:37-39 | The span texts (each word plus a space, the last word bare), read back to back, equal the words joined by spaces. |
| `LineSplit.MaxWidth` | components/contact.tsx:20 | The available width is the element's width, or the viewport width less 100 when the element measures 0. |
| `LineSplit.SplitTextIntoLines` | components/contact.tsx:14-69 | Empty text yields no lines. Otherwise the lines partition the spans in order and none is empty, so there are at most as many lines as words. Every line fits the width unless it holds a single span (an oversized word is placed alone, never dropped). Each line but the last could not take the next line's first span. The lines' text is exactly the original text. |
| `LineSplit.WrapSpans` | components/contact.tsx:37-65 | The word loop and the final close produce a greedy wrapping of all spans: the lines partition the spans in order, none is empty, each fits whenever it holds two or more spans, and each but the last could not take the next span. There are never more lines than spans. |
| `LineSplit.StepKeepsBuilding` | components/contact.tsx:37-60 | One iteration of the word loop keeps the loop's invariant: the spans seen so far are partitioned in order, closed lines fit and are greedy, and the open line fits. |
| `LineSplit.RunBuilds` | components/contact.tsx:37-60 | Running the rest of the word loop from any state that keeps the invariant ends in a state that keeps it for all the spans. |
| `LineSplit.CloseWraps` | components/contact.tsx:62-65 | Appending the non-empty open line after the loop completes a greedy wrapping of all spans. |
| `LineSplit.WrappedRestoresText` | components/contact.tsx:18-39 | The lines of any wrapping of a text's spans read back, end to end, as the text. |
| `LineSplit.WrappedLinesFit` | components/contact.tsx:44-58 | In a greedy wrapping, every line with two or more spans measures within the width. |
| `LineSplit.WrappedUnique` | components/contact.tsx:37-65 | At most one list of lines satisfies the wrapping properties, so the splitter's contract determines its output. |
| `ContactForm.FieldNamed` | components/contact.tsx:96-99 | An input's `name` picks out exactly the one field of that name, if any. |
| `ContactForm.HandleChange` | components/contact.tsx:93-100 | The field named by the event takes the event's value. The other two fields keep theirs. |
| `ContactForm.HandleSubmit` | components/contact.tsx:85-91 | Submission clears all three fields, whatever they held. |
| `ContactForm.LastEditWins` | components/contact.tsx:93-100 | After any run of change events, each field holds the last value typed into it, or its earlier value if it was never edited. |
| `ContactForm.SubmitRestoresMounted` | components/contact.tsx:79-91 | The reset literal of the submit handler equals the state the form is mounted with. So submitting after any edits from mount returns the form to that state, and later edits leave it as they would on a freshly mounted form. |
| `Header.CharSpan` | components/header.tsx:30 | A character span holds exactly one character and never a plain space. |
| `Header.SplitTextIntoChars` | components/header.tsx:21-40 | An element that already has spans is left as it is, and its spans are returned. Otherwise there is one span per character, in order: a space becomes U+00A0 and every other character is kept. The element's spans are then exactly the returned ones. |
| `Header.SplitIdempotent` | components/header.tsx:23-25 | Splitting the element a split leaves behind changes nothing and returns the same spans. |
| `Header.UnsplitRestoresText` | components/header.tsx:27-30 | For a text without U+00A0, reading the character spans back, with U+00A0 as a space, recovers the text. |
| `Header.SplitTextHasNoSpaces` | components/header.tsx:30-37 | After splitting, the element's text has the same length and contains no plain space. |
| `Header.HandleScroll` | components/header.tsx:56-79 | The handler compares the offset with the `isScrolled` value its closure captured. It sets the flag exactly when "scrolled past 50 px" differs from that value, and then to "scrolled past 50 px". A fade starts exactly when it sets the flag and the background exists: to opacity 1 when scrolling past, to 0 when returning. |
| `Header.OnScroll` | components/header.tsx:56-83 | A scroll event changes only React's flag, never the value the registered listener captured. When the listener is current, the flag afterwards is exactly "scrolled past 50 px". An event on the side of the threshold the listener already expects changes nothing. |
| `Header.Reregister` | components/header.tsx:81-83 | After the re-render that the flag change causes, the effect keyed on `isScrolled` registers a listener that captures the current flag. |
| `Header.ScrollSettles` | components/header.tsx:55-83 | Once the listener has been re-registered, running it again at the same offset neither changes the flag nor starts a fade. |
| `Header.StaleListener` | components/header.tsx:55-83 | Until the re-render, the old listener still sees the old flag. Scrolling past 50 px then back to 40 px with no re-render in between leaves `isScrolled` true, and a second event past 50 px starts a second fade in. After the re-render, the next event at 40 px clears the flag. |
| `Header.HandleToggleMenu` | components/header.tsx:252-271 | With no timeline the toggle does nothing. Otherwise the timeline is no longer paused and keeps its progress, the menu is marked closed exactly when the progress was 1, and the open flag agrees with the direction the timeline now plays in. |
| `Header.Mount` | components/header.tsx:100-101 | The mount effect creates a timeline that is paused at progress 0. The open flag is left alone. |
| `Header.Settle` | components/header.tsx:256-268 | No timeline, or a paused one, does not move. A running timeline plays to its end in its direction: forward to progress 1, keeping the open flag; in reverse to progress 0, where the completion callback marks the menu closed. |
| `Header.MountedMenuWaits` | components/header.tsx:100-101 | The timeline built on mount stays at its start with the menu closed until the first click. |
| `Header.OpenThenClose` | components/header.tsx:252-271 | From a closed menu at the start of its timeline, a click (after its animation ends) opens the menu fully. A second click (after its reversal ends) closes it back at the start. |
| `Header.ItemImages` | components/header.tsx:331-343 | There is at most one image per entry, and no rendered image path is empty. An entry counts as having an image only when its `bgImage` is present and non-empty, as the falsy test does. When every entry has one, image i is entry i's own. When none has one, nothing is rendered. |
| `Header.EmptyImageSkipped` | components/header.tsx:331-332 | An entry whose image path is the empty string renders no image, so the next entry's image takes its index. |
| `Header.OnMouseEnter` | components/header.tsx:112-129 | Entering entry i leaves exactly image i+1 faded in. |
| `Header.OnMouseLeave` | components/header.tsx:131-147 | Leaving an entry leaves exactly the default image 0 faded in. |
| `Header.HoverShowsOwnImage` | components/header.tsx:13-18 | For the site's menu there is one image more than there are entries. So index i+1 is always in range, hovering entry i shows that entry's own background and no other, and leaving shows the default image. |
| `TechStack.GradientDirection` | components/tech-stack.tsx:34-41 | The fade on an edge runs towards the opposite edge: left to right, right to left, top to bottom, bottom to top. |
| `TechStack.FadeGradient` | components/tech-stack.tsx:32-44 | For every edge, the fade is `linear-gradient(to <opposite edge>, rgba(10, 52, 63, 0.92), transparent)`. |
| `TechStack.FadeGradientInjective` | components/tech-stack.tsx:32-44 | Different edges get different gradients. |
| `TechStack.Duplicate` | components/tech-stack.tsx:78 | The duplicated list is twice as long, each half equals the original, and it holds every client twice. |
| `TechStack.Evens` | components/tech-stack.tsx:315-316 | The even filter keeps the entries at positions 0, 2, 4, … in order: ⌈n/2⌉ of them. |
| `TechStack.Odds` | components/tech-stack.tsx:350-351 | The odd filter keeps the entries at positions 1, 3, 5, … in order: ⌊n/2⌋ of them. |
| `TechStack.InterleaveEvensOdds` | components/tech-stack.tsx:315-351 | Dealing the two filters' results out alternately gives back the list, so no entry is lost, shared or moved. |
| `TechStack.EvensOddsMultiset` | components/tech-stack.tsx:315-351 | Between them, the two filters hold every entry as often as the list does. |
| `TechStack.Columns` | components/tech-stack.tsx:315-351 | Each desktop column gets 2 × (number of clients) cards. Together the two columns hold exactly the entries of the doubled duplicated list. |
| `TechStack.ColumnsShowEveryClientTwice` | components/tech-stack.tsx:315-351 | With an odd number of clients, each column shows every client exactly twice. |
| `TechStack.SiteColumnsShowEveryClient` | components/tech-stack.tsx:49-61 | With the site's eleven clients, both columns carry every logo. |
| `TechStack.MobileMarquee` | components/tech-stack.tsx:418 | The mobile marquee starts at 0. It moves to +50% in Arabic and to −50% otherwise. |
| `TechStack.MarqueeFlipsWithLanguage` | components/tech-stack.tsx:253 | The marquee always travels 50% of the moving element's own width. It moves right exactly when the document is right-to-left, and toggling the language reverses it. |

## Left out

- Rendering (JSX, Tailwind classes, SVG filters, `next/image`) is left out: it has no behaviour to state.
- Animation is left out: framer-motion, GSAP tweens and ScrollTrigger, and Lenis smooth scrolling. The model keeps only the decisions the code takes (which fade starts, which image is shown, which way the timeline plays), not durations, easing or scale values.
- DOM side effects are left out: creating and removing the hidden measurement container, replacing an element's content with the line spans (components/contact.tsx:35, 51, 63), styling the line and character elements, `console.log` and `preventDefault` in the submit handler, and the `addEventListener`/`removeEventListener` calls themselves (components/header.tsx:81-82, 149-154). The character spans that replace a menu link's text are modelled by `Header.SplitTextIntoChars`, and which flag the scroll listener captures is modelled by `Header.Reregister`.
- `LineSplit.SplitTextIntoLines`: the `!element` check and a `null` text content are not modelled separately, because the caller only passes a mounted element; `null` text behaves as the empty text. Measurement is an abstract function of the line's text, so the HTML parsing implied by assigning the text to `innerHTML` is folded into it. Both `offsetWidth` and `innerWidth` are integer DOM properties, so the `nat`/`int` widths and the `maxWidth` arithmetic are exact.
- `Header.HandleScroll`: the scroll offset is a real number; floating-point rounding is not modelled. When React re-renders is not modelled either: `Header.Reregister` is an explicit step, so a run of events may put it anywhere after the flag changes.
- `Header.HandleToggleMenu`: timeline progress is a real number. The pointer-events style changes are not modelled. The reverse-completion callback is modelled only by `Header.Settle`, the point where an animation runs to its end.
- `Header.SplitTextIntoChars`: a Dafny string is a sequence of Unicode code points, while `split("")` cuts a JavaScript string into UTF-16 code units. The two differ only for characters outside the Basic Multilingual Plane (an emoji becomes two spans in the browser), and the menu's labels (components/header.tsx:13-18) are plain ASCII. The test "has children and contains a span" is modelled as "contains a span"; the two agree, because a span inside the element makes it have children.
- `ContactForm.HandleChange`: only the form's three inputs (named `name`, `email` and `message`) raise change events, so a change to any other property name is not modelled.
- `TechStack.MarqueeFlipsWithLanguage`: the percentages are of the moving element's own box, which is laid out by the browser. Whether 50% of that box equals one copy of the duplicated list, the seamless loop the comment at components/tech-stack.tsx:77 intends, depends on layout and is not modelled.
- Static per-language headings in the tech-stack section, the desktop columns' vertical keyframes, and the technologies grid are left out: they are literal text and animation constants.
- The hero, about, works, footer, marquee and language-switch components, the 3D circle, and the page and layout files are not part of this model: they are static content or animation.

=== FILE: contact_form.dfy ===
/** The contact form's local state and its two handlers. */
module ContactForm {
  import opened Wrappers

  /** The three inputs of the form, by their `name` attribute. */
  datatype Field = Name | Email | Message

  datatype FormData = FormData(name: string, email: string, message: string)

  /** The state the form is mounted with: every field empty. */
  const Mounted: FormData := FormData(name := "", email := "", message := "")

  function FieldName(f: Field): string
  {
    match f
    case Name => "name"
    case Email => "email"
    case Message => "message"
  }

  /** The input named `name`, if it is one of the form's three. */
  function FieldNamed(name: string): (r: Option<Field>)
    ensures r.Some? ==> FieldName(r.value) == name
    ensures forall f :: FieldName(f) == name ==> r == Some(f)
  {
    if name == "name" then Some(Name)
    else if name == "email" then Some(Email)
    else if name == "message" then Some(Message)
    else None
  }

  /** The value the form holds for a field. */
  function Get(data: FormData, f: Field): string
  {
    match f
    case Name => data.name
    case Email => data.email
    case Message => data.message
  }

  /** `handleChange`: the changed input takes the event's value; the other two keep theirs. */
  function HandleChange(data: FormData, f: Field, value: string): (r: FormData)
    ensures Get(r, f) == value
    ensures forall g :: g != f ==> Get(r, g) == Get(data, g)
  {
    match f
    case Name => data.(name := value)
    case Email => data.(email := value)
    case Message => data.(message := value)
  }

  /** `handleSubmit`: every field is cleared, whatever was typed. */
  function HandleSubmit(data: FormData): (r: FormData)
    ensures forall f :: Get(r, f) == ""
  {
    FormData("", "", "")
  }

  /** A change event, as the browser delivers it. */
  datatype Change = Change(field: Field, value: string)

  /** The form after a run of change events. */
  function ApplyChanges(data: FormData, changes: seq<Change>): FormData
    decreases |changes|
  {
    if |changes| == 0 then data
    else ApplyChanges(HandleChange(data, changes[0].field, changes[0].value), changes[1..])
  }

  /** Change `i` is the last one made to field `f`. */
  predicate LastEditTo(changes: seq<Change>, f: Field, i: int)
  {
    && 0 <= i < |changes|
    && changes[i].field == f
    && (forall j :: i < j < |changes| ==> changes[j].field != f)
  }

  /** After any run of edits, a field holds the last value typed into it,
      or its earlier value when it was never edited. */
  lemma {:induction false} LastEditWins(data: FormData, changes: seq<Change>, f: Field)
    ensures (forall i :: 0 <= i < |changes| ==> changes[i].field != f) ==>
      Get(ApplyChanges(data, changes), f) == Get(data, f)
    ensures forall i :: LastEditTo(changes, f, i) ==> Get(ApplyChanges(data, changes), f) == changes[i].value
    decreases |changes|
  {
    if |changes| > 0 {
      var next := HandleChange(data, changes[0].field, changes[0].value);
      LastEditWins(next, changes[1..], f);
      forall i | LastEditTo(changes, f, i)
        ensures Get(ApplyChanges(data, changes), f) == changes[i].value
      {
        if i > 0 {
          assert LastEditTo(changes[1..], f, i - 1);
        } else {
          assert forall j :: 0 <= j < |changes| - 1 ==> changes[1..][j] == changes[j + 1];
        }
      }
    }
  }

  /** Submitting after any edits returns the form to its mounted state, so the edits made
      after a submission leave the form as they would on a freshly mounted one. */
  lemma SubmitRestoresMounted(before: seq<Change>, after: seq<Change>)
    ensures HandleSubmit(ApplyChanges(Mounted, before)) == Mounted
    ensures ApplyChanges(HandleSubmit(ApplyChanges(Mounted, before)), after) == ApplyChanges(Mounted, after)
  {
  }
}

=== FILE: header.dfy ===
/**
 * The site header: per-character splitting of the menu links, the scroll flag
 * that shows the header background, the menu toggle driven by the open/close
 * animation timeline, and the menu-hover background images.
 */
module Header {
  import opened Wrappers
  import LineSplit

  /** The non-breaking space that stands in for a space inside a character span. */
  const Nbsp: char := '\U{00A0}'

  /** The text of the span made for one character. */
  function CharSpan(c: char): (r: string)
    ensures |r| == 1
    ensures r[0] != ' '
  {
    if c == ' ' then [Nbsp] else [c]
  }

  /** The element being split, as far as the splitter looks at it: its text content
      and the texts of the `span` elements inside it, in document order. */
  datatype Element = Element(text: string, spans: seq<string>)

  /** What `splitTextIntoChars` returns, together with the element it leaves behind. */
  datatype CharSplit = CharSplit(element: Element, chars: seq<string>)

  /** `splitTextIntoChars`: an element that already has spans is returned as it is, with
      those spans; otherwise its text becomes one span per character. */
  function SplitTextIntoChars(e: Element): (r: CharSplit)
    ensures |e.spans| > 0 ==> r == CharSplit(e, e.spans)
    ensures |e.spans| == 0 ==> |r.chars| == |e.text|
    ensures |e.spans| == 0 ==> forall i :: 0 <= i < |e.text| ==>
      r.chars[i] == (if e.text[i] == ' ' then [Nbsp] else [e.text[i]])
    ensures |e.spans| == 0 ==> r.element.spans == r.chars
  {
    if |e.spans| > 0 then CharSplit(e, e.spans)
    else
      var chars := seq(|e.text|, i requires 0 <= i < |e.text| => CharSpan(e.text[i]));
      CharSplit(Element(LineSplit.Concat(chars), chars), chars)
  }

  /** Splitting an already split element changes nothing and returns the same spans. */
  lemma SplitIdempotent(e: Element)
    ensures SplitTextIntoChars(SplitTextIntoChars(e).element) == SplitTextIntoChars(e)
  {
  }

  /** Reading the character spans back, with non-breaking spaces as spaces. */
  function Unsplit(chars: seq<string>): string
  {
    if |chars| == 0 then ""
    else (if chars[0] == [Nbsp] then " " else chars[0]) + Unsplit(chars[1..])
  }

  /** A text without non-breaking spaces is recovered from its character spans. */
  lemma UnsplitRestoresText(text: string)
    requires Nbsp !in text
    ensures Unsplit(SplitTextIntoChars(Element(text, [])).chars) == text
  {
    UnsplitSpans(text, SplitTextIntoChars(Element(text, [])).chars);
  }

  lemma {:induction false} UnsplitSpans(text: string, chars: seq<string>)
    requires forall i :: 0 <= i < |text| ==> text[i] != Nbsp
    requires |chars| == |text|
    requires forall i :: 0 <= i < |text| ==> chars[i] == CharSpan(text[i])
    ensures Unsplit(chars) == text
  {
    if |text| > 0 {
      UnsplitSpans(text[1..], chars[1..]);
      assert text == [text[0]] + text[1..];
    }
  }

  /** The element's new text has no plain spaces, so the split survives collapsing of white space. */
  lemma {:induction false} SplitTextHasNoSpaces(e: Element)
    requires |e.spans| == 0
    ensures ' ' !in SplitTextIntoChars(e).element.text
    ensures |SplitTextIntoChars(e).element.text| == |e.text|
  {
    ConcatOfSingles(SplitTextIntoChars(e).chars);
  }

  lemma {:induction false} ConcatOfSingles(chars: seq<string>)
    requires forall i :: 0 <= i < |chars| ==> |chars[i]| == 1 && chars[i][0] != ' '
    ensures |LineSplit.Concat(chars)| == |chars|
    ensures ' ' !in LineSplit.Concat(chars)
  {
    if |chars| > 0 {
      ConcatOfSingles(chars[1..]);
    }
  }

  /** Scroll offset, in pixels, past which the header gets its background. */
  const ScrollThreshold: real := 50.0

  /** What one run of the scroll handler does: the value it gives `setIsScrolled`, if it
      calls it, and the target opacity of the background fade it starts, if any. */
  datatype ScrollEffect = ScrollEffect(setTo: Option<bool>, fade: Option<int>)

  /** The scroll handler. It reads `seen`, the `isScrolled` value its closure captured when
      the effect registered it; `hasBackground` says whether the background element is
      mounted (without it the flag is still set but no fade starts). */
  function HandleScroll(seen: bool, scrollY: real, hasBackground: bool): (r: ScrollEffect)
    ensures r.setTo.Some? <==> (scrollY > ScrollThreshold) != seen
    ensures r.setTo.Some? ==> r.setTo.value == (scrollY > ScrollThreshold)
    ensures r.fade.Some? <==> hasBackground && r.setTo.Some?
    ensures r.fade.Some? ==> r.fade.value == (if scrollY > ScrollThreshold then 1 else 0)
  {
    if scrollY > ScrollThreshold && !seen then ScrollEffect(Some(true), FadeTo(1, hasBackground))
    else if scrollY <= ScrollThreshold && seen then ScrollEffect(Some(false), FadeTo(0, hasBackground))
    else ScrollEffect(None, None)
  }

  /** A fade of the background to `opacity`, started only when the background exists. */
  function FadeTo(opacity: int, hasBackground: bool): Option<int>
  {
    if hasBackground then Some(opacity) else None
  }

  /** The scroll state: React's `isScrolled`, and the value the registered listener captured. */
  datatype ScrollState = ScrollState(isScrolled: bool, seen: bool)

  /** On mount the flag is false and the listener registered with it sees false. */
  const InitialScroll: ScrollState := ScrollState(false, false)

  /** A scroll event: the registered listener runs and its `setIsScrolled`, if any, is applied.
      A listener that sees the current flag leaves the flag equal to "scrolled past 50 px". */
  function OnScroll(s: ScrollState, scrollY: real, hasBackground: bool): (r: ScrollState)
    ensures r.seen == s.seen
    ensures s.seen == s.isScrolled ==> r.isScrolled == (scrollY > ScrollThreshold)
    ensures (scrollY > ScrollThreshold) == s.seen ==> r == s
  {
    match HandleScroll(s.seen, scrollY, hasBackground).setTo
    case Some(v) => s.(isScrolled := v)
    case None => s
  }

  /** The re-render after `isScrolled` changed: the effect, keyed on `isScrolled`, removes the
      old listener and registers one that sees the current flag. */
  function Reregister(s: ScrollState): (r: ScrollState)
    ensures r.isScrolled == s.isScrolled && r.seen == s.isScrolled
  {
    s.(seen := s.isScrolled)
  }

  /** Once the listener has been re-registered, running it again at the same offset neither
      changes the flag nor starts another fade. */
  lemma ScrollSettles(s: ScrollState, scrollY: real, hasBackground: bool)
    requires s.seen == s.isScrolled
    ensures var after := Reregister(OnScroll(s, scrollY, hasBackground));
      && HandleScroll(after.seen, scrollY, hasBackground) == ScrollEffect(None, None)
      && OnScroll(after, scrollY, hasBackground) == after
  {
  }

  /** Before the re-registration the old listener still sees the old flag: a second event past
      the threshold starts a second fade in, and scrolling straight back below the threshold
      leaves the flag set until the next event after the re-render. */
  lemma StaleListener()
    ensures var past := OnScroll(InitialScroll, 60.0, true);
      && past.isScrolled && !past.seen
      && HandleScroll(past.seen, 60.0, true).fade == Some(1)
      && OnScroll(past, 40.0, true).isScrolled
      && OnScroll(Reregister(OnScroll(past, 40.0, true)), 40.0, true).isScrolled == false
  {
  }

  /** The direction the menu timeline is playing in. */
  datatype Direction = Forward | Reversed

  /** The menu timeline: how far the open animation has run (0 closed, 1 open), the direction
      it plays in, and whether it is paused. */
  datatype Timeline = Timeline(progress: real, direction: Direction, paused: bool)

  /** The menu's state: the open flag and the timeline, absent until the header has mounted. */
  datatype MenuState = MenuState(isMenuOpen: bool, timeline: Option<Timeline>)

  /** The header as first rendered: menu closed, no timeline yet. */
  const InitialMenu: MenuState := MenuState(false, None)

  /** The mount effect builds the timeline paused at its start. */
  function Mount(s: MenuState): (r: MenuState)
    ensures r.isMenuOpen == s.isMenuOpen
    ensures r.timeline.Some? && r.timeline.value.progress == 0.0 && r.timeline.value.paused
  {
    s.(timeline := Some(Timeline(0.0, Forward, true)))
  }

  /** `handleToggleMenu`: without a timeline nothing happens; a fully open menu is reversed
      and marked closed; otherwise the timeline plays forward and the menu is marked open. */
  function HandleToggleMenu(s: MenuState): (r: MenuState)
    ensures s.timeline.None? ==> r == s
    ensures s.timeline.Some? ==> r.timeline.Some? && r.timeline.value.progress == s.timeline.value.progress
    ensures s.timeline.Some? ==> !r.timeline.value.paused
    ensures s.timeline.Some? ==> (r.isMenuOpen <==> s.timeline.value.progress != 1.0)
    ensures s.timeline.Some? ==> (r.isMenuOpen <==> r.timeline.value.direction == Forward)
  {
    match s.timeline
    case None => s
    case Some(tl) =>
      if tl.progress == 1.0 then MenuState(false, Some(Timeline(tl.progress, Reversed, false)))
      else MenuState(true, Some(Timeline(tl.progress, Forward, false)))
  }

  /** A running timeline plays to its end in its current direction; when a reversal completes,
      its callback marks the menu closed. A paused timeline, or none, stays as it is. */
  function Settle(s: MenuState): (r: MenuState)
    ensures s.timeline.None? || s.timeline.value.paused ==> r == s
    ensures s.timeline.Some? ==> r.timeline.Some? && r.timeline.value.direction == s.timeline.value.direction
    ensures s.timeline.Some? && !s.timeline.value.paused && s.timeline.value.direction == Forward ==>
      r.timeline.value.progress == 1.0 && r.isMenuOpen == s.isMenuOpen
    ensures s.timeline.Some? && !s.timeline.value.paused && s.timeline.value.direction == Reversed ==>
      r.timeline.value.progress == 0.0 && !r.isMenuOpen
  {
    match s.timeline
    case None => s
    case Some(tl) =>
      if tl.paused then s
      else if tl.direction == Forward then s.(timeline := Some(tl.(progress := 1.0)))
      else MenuState(false, Some(tl.(progress := 0.0)))
  }

  /** The timeline built on mount does not move until a click: the menu stays closed at the start. */
  lemma MountedMenuWaits()
    ensures Settle(Mount(InitialMenu)) == Mount(InitialMenu)
    ensures !Mount(InitialMenu).isMenuOpen
  {
  }

  /** Opening and then closing a closed menu at the start of its timeline, letting each animation
      finish, returns it to a closed menu at the start; the first click opens it fully. This
      covers the first clicks after mount. */
  lemma OpenThenClose(s: MenuState)
    requires s.timeline.Some? && s.timeline.value.progress == 0.0 && !s.isMenuOpen
    ensures var afterOpen := Settle(HandleToggleMenu(s));
      afterOpen.isMenuOpen && afterOpen.timeline.value.progress == 1.0
    ensures var afterClose := Settle(HandleToggleMenu(Settle(HandleToggleMenu(s))));
      !afterClose.isMenuOpen && afterClose.timeline.value.progress == 0.0
  {
  }

  /** A menu entry; `caption` is the text of the link. Every entry of this header has a background image. */
  datatype MenuItem = MenuItem(caption: string, href: string, bgImage: Option<string>)

  const MenuItems: seq<MenuItem> := [
    MenuItem("Home", "#", Some("/images/cloud.png")),
    MenuItem("About", "#about", Some("/images/liquid-1.png")),
    MenuItem("Services", "#services", Some("/images/liquid-2.png")),
    MenuItem("Contact", "#contact", Some("/images/shape.png"))
  ]

  /** The image shown when no entry is hovered. */
  const DefaultImage: string := "/images/cloud.png"

  /** The images rendered for the entries, skipping entries whose image is absent or empty. */
  function ItemImages(items: seq<MenuItem>): (r: seq<string>)
    ensures |r| <= |items|
    ensures forall k :: 0 <= k < |r| ==> r[k] != ""
    ensures (forall i :: 0 <= i < |items| ==> HasImage(items[i])) ==>
      |r| == |items| && forall i :: 0 <= i < |items| ==> r[i] == items[i].bgImage.value
    ensures (forall i :: 0 <= i < |items| ==> !HasImage(items[i])) ==> r == []
  {
    if |items| == 0 then []
    else
      (if HasImage(items[0]) then [items[0].bgImage.value] else []) + ItemImages(items[1..])
  }

  /** An entry gets a background only when its `bgImage` is truthy: present and non-empty. */
  predicate HasImage(item: MenuItem)
  {
    item.bgImage.Some? && item.bgImage.value != ""
  }

  /** The background images in the overlay: the default, then one per entry. */
  function BackgroundImages(items: seq<MenuItem>): seq<string>
  {
    [DefaultImage] + ItemImages(items)
  }

  /** An entry with an empty image path renders no image, so the later entries' images move
      down one index: hovering the first entry below would fade in the second entry's image. */
  lemma EmptyImageSkipped()
    ensures ItemImages([MenuItem("A", "#", Some("")), MenuItem("B", "#b", Some("/b.png"))]) == ["/b.png"]
  {
  }

  /** Which images are faded in after the pointer enters entry `index` of `count` images. */
  function OnMouseEnter(count: nat, index: nat): (visible: seq<bool>)
    ensures |visible| == count
    ensures forall j :: 0 <= j < count ==> (visible[j] <==> j == index + 1)
  {
    seq(count, j => j == index + 1)
  }

  /** Which images are faded in after the pointer leaves an entry. */
  function OnMouseLeave(count: nat): (visible: seq<bool>)
    ensures |visible| == count
    ensures forall j :: 0 <= j < count ==> (visible[j] <==> j == 0)
  {
    seq(count, j => j == 0)
  }

  /** Hovering entry `i` shows exactly that entry's own image, which always exists;
      leaving shows the default image. */
  lemma HoverShowsOwnImage(i: nat)
    requires i < |MenuItems|
    ensures var images := BackgroundImages(MenuItems);
      && |images| == |MenuItems| + 1
      && images[i + 1] == MenuItems[i].bgImage.value
      && OnMouseEnter(|images|, i)[i + 1]
      && (forall j :: 0 <= j < |images| && OnMouseEnter(|images|, i)[j] ==> images[j] == MenuItems[i].bgImage.value)
      && OnMouseLeave(|images|)[0] && images[0] == DefaultImage
  {
  }
}

=== FILE: language.dfy ===
/**
 * The shared language context of the site: the active language, its
 * toggle, the translation lookup `t`, the `lang`/`dir` attributes written to
 * the document root, and the guard that refuses use outside a provider.
 */
module Language {
  import opened Wrappers

  /** The two interface languages. */
  datatype Lang = En | Ar

  /** Text direction of the document root. */
  datatype Dir = Ltr | Rtl

  /** The language code, as stored in state and written to the `lang` attribute. */
  function Code(l: Lang): (r: string)
    ensures FromCode(r) == Some(l)
  {
    match l
    case En => "en"
    case Ar => "ar"
  }

  /** Reads a language code back; only the two codes of the `Language` type are accepted. */
  function FromCode(s: string): (r: Option<Lang>)
  {
    if s == "en" then Some(En) else if s == "ar" then Some(Ar) else None
  }

  /** State held by the provider: the language, and a transition flag that nothing ever sets. */
  datatype Provider = Provider(language: Lang, isTransitioning: bool)

  /** The provider as mounted. */
  function Init(): (p: Provider)
    ensures p.language == En
    ensures !p.isTransitioning
  {
    Provider(En, false)
  }

  /** The updater passed to `setLanguage`: "en" becomes "ar", anything else becomes "en". */
  function Toggle(l: Lang): (r: Lang)
    ensures r != l
    ensures Code(r) == (if Code(l) == "en" then "ar" else "en")
  {
    if l == En then Ar else En
  }

  /** Applying the toggle twice restores the language. */
  lemma ToggleInvolutive(l: Lang)
    ensures Toggle(Toggle(l)) == l
  {
  }

  /** `toggleLanguage`: only the language changes; the transition flag keeps its value. */
  function ToggleLanguage(p: Provider): (q: Provider)
    ensures q.language != p.language
    ensures q.isTransitioning == p.isTransitioning
  {
    p.(language := Toggle(p.language))
  }

  /** The provider after `n` clicks on the language switch. */
  function AfterToggles(n: nat): Provider
  {
    if n == 0 then Init() else ToggleLanguage(AfterToggles(n - 1))
  }

  /** Every reachable provider state is English after an even number of toggles,
      Arabic after an odd number, and never transitioning. */
  lemma {:induction false} ReachableStates(n: nat)
    ensures AfterToggles(n).language == (if n % 2 == 0 then En else Ar)
    ensures !AfterToggles(n).isTransitioning
  {
    if n > 0 {
      ReachableStates(n - 1);
    }
  }

  /** A translation table: key to displayed text. */
  type Table = map<string, string>

  const EnTable: Table := map[
    "header.logo" := "INNO",
    "menu.home" := "Home",
    "menu.about" := "About",
    "menu.services" := "Services",
    "menu.contact" := "Contact",
    "hero.innovation" := "innovation",
    "hero.title" := "Your Best Technical Partner",
    "about.title" := "How do we make your work easier?",
    "about.paragraph1" := "Inno is a technology company specialized in empowering businesses through building advanced digital solutions. We work as a technical partner that provides vision, implementation, and operation of systems that help companies grow, develop their way of working, and improve their customer experience.",
    "about.paragraph2" := "We develop digital platforms and provide automation and artificial intelligence solutions, and work on transforming traditional processes into flexible workflows that operate with higher efficiency and clearer results. Our focus is on building scalable, understandable, and easy-to-use solutions, with a solid technical foundation that lasts for years."
  ]

  const ArTable: Table := map[
    "header.logo" := "إينو",
    "menu.home" := "الرئيسية",
    "menu.about" := "من نحن",
    "menu.services" := "الخدمات",
    "menu.contact" := "تواصل معنا",
    "hero.innovation" := "إينو",
    "hero.title" := "شريكك التقني الأمثل",
    "about.title" := "كيف نسهل عليك عملك؟",
    "about.paragraph1" := "إينو هي شركة تقنية متخصصة في تمكين الأعمال من خلال بناء حلول رقمية متطورة. نعمل كشريك تقني يقدم الرؤية والتنفيذ والتشغيل لأنظمة تساعد الشركات على النمو وتطوير طريقة عملها وتحسين تجربة عملائها.",
    "about.paragraph2" := "نطوّر منصات رقمية ونقدّم حلول أتمتة وذكاء اصطناعي، ونعمل على تحويل العمليات التقليدية إلى مسارات عمل مرنة تعمل بكفاءة أعلى ونتائج أوضح. تركيزنا على بناء حلول قابلة للتطوير ومفهومة وسهلة الاستخدام، مع بنية تقنية ثابتة تدوم لسنوات."
  ]

  function TableOf(l: Lang): Table
  {
    match l
    case En => EnTable
    case Ar => ArTable
  }

  /** The members every object literal inherits from `Object.prototype`. Looking one of
      them up in a table that does not define it yields that member (a function, or the
      prototype object itself for `__proto__`), which is truthy and is not text. */
  const InheritedNames: set<string> := {
    "constructor", "hasOwnProperty", "isPrototypeOf", "propertyIsEnumerable",
    "toLocaleString", "toString", "valueOf", "__proto__",
    "__defineGetter__", "__defineSetter__", "__lookupGetter__", "__lookupSetter__"
  }

  /** What `t` hands back: text, or an inherited member of the table object. */
  datatype Translation = Text(text: string) | Inherited(member: string)

  /** JavaScript's `table[key] || key` on an object literal: an own, non-empty value wins;
      an own empty value falls back to the key; a missing key falls back to the key unless
      the object inherits a member of that name. */
  function Lookup(table: Table, key: string): (r: Translation)
    ensures r.Inherited? <==> key !in table && key in InheritedNames
    ensures r.Inherited? ==> r.member == key
    ensures r.Text? ==> r.text == key || (key in table && r.text == table[key])
    ensures key in table && table[key] != "" ==> r == Text(table[key])
    ensures r.Text? && r.text == "" ==> key == ""
  {
    if key in table && table[key] != "" then Text(table[key])
    else if key !in table && key in InheritedNames then Inherited(key)
    else Text(key)
  }

  /** `t(key)` in the given language. */
  function T(l: Lang, key: string): Translation
  {
    Lookup(TableOf(l), key)
  }

  /** Every value of either table is non-empty, so `t` gives the table's text exactly on the
      table's keys, the key itself on any other key that is not an inherited member's name,
      and the inherited member otherwise. */
  lemma TranslateHitsExactlyTheKeys(l: Lang, key: string)
    ensures key in TableOf(l) ==> T(l, key) == Text(TableOf(l)[key]) && TableOf(l)[key] != ""
    ensures key !in TableOf(l) && key !in InheritedNames ==> T(l, key) == Text(key)
    ensures key !in TableOf(l) && key in InheritedNames ==> T(l, key) == Inherited(key)
  {
  }

  /** Both tables define the same keys. */
  lemma SameKeys()
    ensures EnTable.Keys == ArTable.Keys
  {
  }

  /** Whether `t` finds a translation does not depend on the language. */
  lemma HitIndependentOfLanguage(key: string)
    ensures T(En, key) == Text(key) <==> T(Ar, key) == Text(key)
    ensures T(En, key).Inherited? <==> T(Ar, key).Inherited?
  {
  }

  /** The keys the contact section asks `t` for; none of them is in either table. */
  const ContactKeys: seq<string> := [
    "contact.title", "contact.subtitle", "contact.description",
    "contact.form.name", "contact.form.namePlaceholder",
    "contact.form.email", "contact.form.emailPlaceholder",
    "contact.form.message", "contact.form.messagePlaceholder",
    "contact.form.submit", "contact.info.title",
    "contact.info.emailLabel", "contact.info.phoneLabel",
    "contact.info.addressLabel", "contact.info.address"
  ]

  /** Every key the contact section uses is displayed verbatim, in both languages. */
  lemma ContactKeysShownVerbatim(l: Lang, i: nat)
    requires i < |ContactKeys|
    ensures T(l, ContactKeys[i]) == Text(ContactKeys[i])
  {
    ContactKeyNotInherited(i);
    if l == En {
      ContactKeyNotInEnglish(i);
    } else {
      ContactKeyNotInArabic(i);
    }
  }

  lemma ContactKeyNotInherited(i: nat)
    requires i < |ContactKeys|
    ensures ContactKeys[i] !in InheritedNames
  {
  }

  lemma ContactKeyNotInEnglish(i: nat)
    requires i < |ContactKeys|
    ensures ContactKeys[i] !in EnTable
  {
  }

  lemma ContactKeyNotInArabic(i: nat)
    requires i < |ContactKeys|
    ensures ContactKeys[i] !in ArTable
  {
  }

  /** The direction written for a language. */
  function DirOf(l: Lang): (d: Dir)
  {
    if l == Ar then Rtl else Ltr
  }

  function DirAttr(d: Dir): string
  {
    match d
    case Ltr => "ltr"
    case Rtl => "rtl"
  }

  /** The document root's attributes after the language effect has run. */
  datatype RootAttrs = RootAttrs(lang: string, dir: string)

  function LanguageEffect(l: Lang): (root: RootAttrs)
    ensures root.dir == "rtl" <==> l == Ar
    ensures root.dir == "ltr" <==> l != Ar
    ensures FromCode(root.lang) == Some(l)
  {
    RootAttrs(Code(l), DirAttr(DirOf(l)))
  }

  /** Toggling the language always flips the document direction. */
  lemma DirectionFlipsWithToggle(l: Lang)
    ensures LanguageEffect(Toggle(l)).dir != LanguageEffect(l).dir
  {
  }

  const GuardMessage: string := "useLanguage must be used within a LanguageProvider"

  /** `useLanguage`: the provider's value, or an error when no provider encloses the caller. */
  function UseLanguage(context: Option<Provider>): (r: Result<Provider>)
    ensures r.Failure? <==> context.None?
    ensures r.Success? ==> r.value == context.value
    ensures r.Failure? ==> r.error == GuardMessage
  {
    match context
    case None => Failure(GuardMessage)
    case Some(p) => Success(p)
  }
}

=== FILE: line_split.dfy ===
/**
 * The contact section's text-to-lines utility. The text is split on single
 * spaces into words; each word becomes a span holding the word and, except for
 * the last word, one trailing space. Spans are appended one by one to the
 * current line, and when the measured line is wider than the available width
 * and holds more than one span, the span just added starts a new line.
 *
 * Text measurement is a browser facility and is taken as a parameter
 * `width`: the width of a line is the width of its text content.
 */
module LineSplit {

  /** JavaScript's `s.split(" ")`: the maximal runs between single spaces, empty runs included. */
  function Split(s: string): (r: seq<string>)
    ensures |r| >= 1
    ensures forall i :: 0 <= i < |r| ==> ' ' !in r[i]
  {
    if |s| == 0 then [""]
    else if s[0] == ' ' then [""] + Split(s[1..])
    else
      var rest := Split(s[1..]);
      [[s[0]] + rest[0]] + rest[1..]
  }

  /** The inverse of `Split`: the words put back together with one space between neighbours. */
  function Join(words: seq<string>): string
    requires |words| >= 1
  {
    if |words| == 1 then words[0] else words[0] + " " + Join(words[1..])
  }

  lemma {:induction false} JoinSplit(s: string)
    ensures Join(Split(s)) == s
  {
    if |s| == 0 {
    } else if s[0] == ' ' {
      JoinSplit(s[1..]);
      assert Split(s)[1..] == Split(s[1..]);
    } else {
      JoinSplit(s[1..]);
      var rest := Split(s[1..]);
      if |rest| == 1 {
      } else {
        assert Split(s)[1..] == rest[1..];
        assert Join(rest) == rest[0] + " " + Join(rest[1..]);
      }
    }
  }

  /** A word without spaces followed by a space is split off as the first word. */
  lemma {:induction false} SplitWordThenSpace(w: string, s: string)
    requires ' ' !in w
    ensures Split(w + " " + s) == [w] + Split(s)
  {
    if |w| == 0 {
      assert (w + " " + s)[1..] == s;
    } else {
      assert w[0] in w;
      assert (w + " " + s)[1..] == w[1..] + " " + s;
      assert forall c :: c in w[1..] ==> c in w;
      SplitWordThenSpace(w[1..], s);
      assert [w[0]] + w[1..] == w;
    }
  }

  /** A word without spaces splits to itself. */
  lemma {:induction false} SplitWord(w: string)
    requires ' ' !in w
    ensures Split(w) == [w]
  {
    if |w| > 0 {
      assert w[0] in w;
      assert forall c :: c in w[1..] ==> c in w;
      SplitWord(w[1..]);
      assert [w[0]] + w[1..] == w;
    }
  }

  lemma {:induction false} SplitJoin(words: seq<string>)
    requires |words| >= 1
    requires forall i :: 0 <= i < |words| ==> ' ' !in words[i]
    ensures Split(Join(words)) == words
  {
    if |words| == 1 {
      SplitWord(words[0]);
    } else {
      SplitJoin(words[1..]);
      SplitWordThenSpace(words[0], Join(words[1..]));
    }
  }

  /** All strings of `ss` concatenated. */
  function Concat(ss: seq<string>): string
  {
    if |ss| == 0 then "" else ss[0] + Concat(ss[1..])
  }

  lemma {:induction false} ConcatAppend(a: seq<string>, b: seq<string>)
    ensures Concat(a + b) == Concat(a) + Concat(b)
  {
    if |a| > 0 {
      assert (a + b)[0] == a[0];
      assert (a + b)[1..] == a[1..] + b;
      ConcatAppend(a[1..], b);
    } else {
      assert a + b == b;
    }
  }

  /** The text of each span: the word, plus a space unless it is the last word. */
  function SpanTexts(words: seq<string>): (r: seq<string>)
    ensures |r| == |words|
  {
    seq(|words|, i requires 0 <= i < |words| => words[i] + (if i < |words| - 1 then " " else ""))
  }

  /** The spans of a split text, read back to back, give the text again. */
  lemma {:induction false} SpansRestoreText(words: seq<string>)
    requires |words| >= 1
    ensures Concat(SpanTexts(words)) == Join(words)
  {
    if |words| > 1 {
      SpansRestoreText(words[1..]);
      assert SpanTexts(words)[1..] == SpanTexts(words[1..]);
      assert SpanTexts(words)[0] == words[0] + " ";
    }
  }

  /** One output line: the texts of the spans it holds, in order. */
  type Line = seq<string>

  /** The spans of all lines, in order. */
  function Flatten(lines: seq<Line>): seq<string>
  {
    if |lines| == 0 then [] else lines[0] + Flatten(lines[1..])
  }

  lemma {:induction false} FlattenAppend(lines: seq<Line>, line: Line)
    ensures Flatten(lines + [line]) == Flatten(lines) + line
  {
    if |lines| > 0 {
      assert (lines + [line])[1..] == lines[1..] + [line];
      FlattenAppend(lines[1..], line);
    } else {
      assert lines + [line] == [line];
    }
  }

  /** The width the lines must fit: the element's width, or the viewport width less 100 when that is 0. */
  function MaxWidth(offsetWidth: nat, innerWidth: int): (m: int)
    ensures offsetWidth > 0 ==> m == offsetWidth
    ensures offsetWidth == 0 ==> m == innerWidth - 100
  {
    if offsetWidth != 0 then offsetWidth else innerWidth - 100
  }

  /** Each time a span was added to the line, and the line held two or more spans, it fit. */
  predicate PrefixesFit(line: Line, width: string -> nat, maxWidth: int)
  {
    forall k :: 2 <= k <= |line| ==> width(Concat(line[..k])) <= maxWidth
  }

  /** No line is empty, and each fit whenever it held two or more spans. */
  predicate LinesFit(lines: seq<Line>, width: string -> nat, maxWidth: int)
  {
    forall j :: 0 <= j < |lines| ==> |lines[j]| > 0 && PrefixesFit(lines[j], width, maxWidth)
  }

  /** A line that is not the last one could not take the next line's first span. */
  predicate Greedy(lines: seq<Line>, width: string -> nat, maxWidth: int)
  {
    forall i :: 1 <= i < |lines| ==>
      |lines[i]| > 0 && width(Concat(lines[i - 1]) + lines[i][0]) > maxWidth
  }

  /** `lines` is a greedy wrapping of `spans`: they partition the spans in order, none is
      empty, each was within the width whenever it held two or more spans, and each
      line but the last was closed only because the next span overflowed it. */
  predicate Wrapped(lines: seq<Line>, spans: seq<string>, width: string -> nat, maxWidth: int)
  {
    && Flatten(lines) == spans
    && LinesFit(lines, width, maxWidth)
    && Greedy(lines, width, maxWidth)
  }

  /** The state of the loop after some of the spans (`done`): closed lines and the open one. */
  predicate Building(lines: seq<Line>, current: Line, done: seq<string>, width: string -> nat, maxWidth: int)
  {
    && Flatten(lines) + current == done
    && LinesFit(lines, width, maxWidth)
    && PrefixesFit(current, width, maxWidth)
    && Greedy(lines, width, maxWidth)
    && (|lines| > 0 ==> |current| > 0 && width(Concat(lines[|lines| - 1]) + current[0]) > maxWidth)
    && (|done| > 0 ==> |current| > 0)
    && |lines| + (if |current| > 0 then 1 else 0) <= |done|
  }

  /** One iteration of the loop: the span is appended to the open line and, when the
      line then overflows and holds more than one span, the span moves to a new line. */
  function Step(lines: seq<Line>, current: Line, span: string, width: string -> nat, maxWidth: int): (seq<Line>, Line)
  {
    var candidate := current + [span];
    if width(Concat(candidate)) > maxWidth && |candidate| > 1 then (lines + [current], [span])
    else (lines, candidate)
  }

  /** After the loop, a non-empty open line is appended. */
  function Close(lines: seq<Line>, current: Line): seq<Line>
  {
    if |current| > 0 then lines + [current] else lines
  }

  lemma PrefixesFitExtend(line: Line, s: string, width: string -> nat, maxWidth: int)
    requires PrefixesFit(line, width, maxWidth)
    requires |line + [s]| <= 1 || width(Concat(line + [s])) <= maxWidth
    ensures PrefixesFit(line + [s], width, maxWidth)
  {
    var ext := line + [s];
    forall k | 2 <= k <= |ext|
      ensures width(Concat(ext[..k])) <= maxWidth
    {
      if k <= |line| {
        assert ext[..k] == line[..k];
      } else {
        assert ext[..k] == ext;
      }
    }
  }

  /** Closing a non-empty line that fits keeps every line fitting. */
  lemma AppendLineFits(lines: seq<Line>, current: Line, width: string -> nat, maxWidth: int)
    requires LinesFit(lines, width, maxWidth)
    requires |current| > 0 && PrefixesFit(current, width, maxWidth)
    ensures LinesFit(lines + [current], width, maxWidth)
  {
    var closed := lines + [current];
    forall j | 0 <= j < |closed|
      ensures |closed[j]| > 0 && PrefixesFit(closed[j], width, maxWidth)
    {
      if j < |lines| {
        assert closed[j] == lines[j];
      }
    }
  }

  /** Closing a line whose first span overflowed the previous line keeps the lines greedy. */
  lemma AppendLineGreedy(lines: seq<Line>, current: Line, width: string -> nat, maxWidth: int)
    requires Greedy(lines, width, maxWidth)
    requires |current| > 0
    requires |lines| > 0 ==> width(Concat(lines[|lines| - 1]) + current[0]) > maxWidth
    ensures Greedy(lines + [current], width, maxWidth)
  {
    var closed := lines + [current];
    forall i | 1 <= i < |closed|
      ensures |closed[i]| > 0 && width(Concat(closed[i - 1]) + closed[i][0]) > maxWidth
    {
      assert closed[i - 1] == lines[i - 1];
      if i < |lines| {
        assert closed[i] == lines[i];
      }
    }
  }

  /** Closing the open line keeps the lines a greedy wrapping of the spans seen so far. */
  lemma AppendLine(lines: seq<Line>, current: Line, width: string -> nat, maxWidth: int)
    requires LinesFit(lines, width, maxWidth) && Greedy(lines, width, maxWidth)
    requires |current| > 0 && PrefixesFit(current, width, maxWidth)
    requires |lines| > 0 ==> width(Concat(lines[|lines| - 1]) + current[0]) > maxWidth
    ensures LinesFit(lines + [current], width, maxWidth) && Greedy(lines + [current], width, maxWidth)
    ensures Flatten(lines + [current]) == Flatten(lines) + current
  {
    FlattenAppend(lines, current);
    AppendLineFits(lines, current, width, maxWidth);
    AppendLineGreedy(lines, current, width, maxWidth);
  }

  /** The overflow branch: the open line is closed and the span starts a new one. */
  lemma OverflowKeepsBuilding(lines: seq<Line>, current: Line, done: seq<string>, span: string, width: string -> nat, maxWidth: int)
    requires Building(lines, current, done, width, maxWidth)
    requires |current| > 0 && width(Concat(current) + span) > maxWidth
    ensures Building(lines + [current], [span], done + [span], width, maxWidth)
  {
    AppendLine(lines, current, width, maxWidth);
    assert Flatten(lines + [current]) + [span] == done + [span];
  }

  /** The fitting branch: the span stays on the open line. */
  lemma FitKeepsBuilding(lines: seq<Line>, current: Line, done: seq<string>, span: string, width: string -> nat, maxWidth: int)
    requires Building(lines, current, done, width, maxWidth)
    requires |current| == 0 || width(Concat(current + [span])) <= maxWidth
    ensures Building(lines, current + [span], done + [span], width, maxWidth)
  {
    PrefixesFitExtend(current, span, width, maxWidth);
    assert Flatten(lines) + (current + [span]) == done + [span];
  }

  lemma StepKeepsBuilding(lines: seq<Line>, current: Line, spans: seq<string>, i: nat, width: string -> nat, maxWidth: int)
    requires i < |spans|
    requires Building(lines, current, spans[..i], width, maxWidth)
    ensures var next := Step(lines, current, spans[i], width, maxWidth);
      Building(next.0, next.1, spans[..i + 1], width, maxWidth)
  {
    var span := spans[i];
    assert spans[..i + 1] == spans[..i] + [span];
    ConcatAppend(current, [span]);
    assert Concat([span]) == span;
    if width(Concat(current + [span])) > maxWidth && |current + [span]| > 1 {
      OverflowKeepsBuilding(lines, current, spans[..i], span, width, maxWidth);
    } else {
      FitKeepsBuilding(lines, current, spans[..i], span, width, maxWidth);
    }
  }

  /** The loop run over the spans `rest`, starting from closed lines `lines` and open line `current`. */
  function Run(lines: seq<Line>, current: Line, rest: seq<string>, width: string -> nat, maxWidth: int): (seq<Line>, Line)
    decreases |rest|
  {
    if |rest| == 0 then (lines, current)
    else
      var next := Step(lines, current, rest[0], width, maxWidth);
      Run(next.0, next.1, rest[1..], width, maxWidth)
  }

  /** Running the loop from any state it can reach over the remaining spans completes a
      greedy wrapping in progress of all of them. */
  lemma {:induction false} RunBuilds(lines: seq<Line>, current: Line, spans: seq<string>, i: nat, width: string -> nat, maxWidth: int)
    requires i <= |spans|
    requires Building(lines, current, spans[..i], width, maxWidth)
    ensures var r := Run(lines, current, spans[i..], width, maxWidth);
      Building(r.0, r.1, spans, width, maxWidth)
    decreases |spans| - i
  {
    if i == |spans| {
      assert spans[..i] == spans;
      assert spans[i..] == [];
    } else {
      StepKeepsBuilding(lines, current, spans, i, width, maxWidth);
      var next := Step(lines, current, spans[i], width, maxWidth);
      RunBuilds(next.0, next.1, spans, i + 1, width, maxWidth);
      assert spans[i..][1..] == spans[i + 1..];
    }
  }

  lemma {:induction false} FlattenEmpty(lines: seq<Line>)
    requires forall j :: 0 <= j < |lines| ==> |lines[j]| > 0
    ensures |Flatten(lines)| >= |lines|
  {
    if |lines| > 0 {
      FlattenEmpty(lines[1..]);
    }
  }

  lemma CloseWraps(lines: seq<Line>, current: Line, spans: seq<string>, width: string -> nat, maxWidth: int)
    requires Building(lines, current, spans, width, maxWidth)
    ensures Wrapped(Close(lines, current), spans, width, maxWidth)
    ensures |Close(lines, current)| <= |spans|
  {
    if |current| > 0 {
      AppendLine(lines, current, width, maxWidth);
    } else {
      assert Flatten(lines) == spans;
    }
  }

  /** The lines of any wrapping of a text's word spans read back as the text. */
  lemma WrappedRestoresText(lines: seq<Line>, text: string, width: string -> nat, maxWidth: int)
    requires Wrapped(lines, SpanTexts(Split(text)), width, maxWidth)
    ensures Concat(Flatten(lines)) == text
  {
    JoinSplit(text);
    SpansRestoreText(Split(text));
  }

  /** Every line of a greedy wrapping fits, unless it holds a single span. */
  lemma WrappedLinesFit(lines: seq<Line>, spans: seq<string>, width: string -> nat, maxWidth: int)
    requires Wrapped(lines, spans, width, maxWidth)
    ensures forall i :: 0 <= i < |lines| ==> |lines[i]| == 1 || width(Concat(lines[i])) <= maxWidth
  {
    forall j | 0 <= j < |lines|
      ensures |lines[j]| == 1 || width(Concat(lines[j])) <= maxWidth
    {
      if |lines[j]| > 1 {
        assert lines[j][..|lines[j]|] == lines[j];
      }
    }
  }

  /**
   * `splitTextIntoLines`, for an element whose text content is `text`, whose
   * measured width is `offsetWidth`, in a viewport `innerWidth` wide.
   * Empty text yields no lines.
   */
  method SplitTextIntoLines(text: string, offsetWidth: nat, innerWidth: int, width: string -> nat)
    returns (lines: seq<Line>)
    ensures text == "" ==> lines == []
    ensures text != "" ==> Wrapped(lines, SpanTexts(Split(text)), width, MaxWidth(offsetWidth, innerWidth))
    ensures Concat(Flatten(lines)) == text
    ensures |lines| <= |Split(text)|
    ensures forall i :: 0 <= i < |lines| ==>
      |lines[i]| == 1 || width(Concat(lines[i])) <= MaxWidth(offsetWidth, innerWidth)
  {
    if text == "" {
      return [];
    }
    var spans := SpanTexts(Split(text));
    lines := WrapSpans(spans, width, MaxWidth(offsetWidth, innerWidth));
    WrappedRestoresText(lines, text, width, MaxWidth(offsetWidth, innerWidth));
    WrappedLinesFit(lines, spans, width, MaxWidth(offsetWidth, innerWidth));
  }

  /** The loop of `splitTextIntoLines`: each span joins the open line, unless the line would
      then overflow while already holding a span, in which case the line is closed and the
      span opens the next one; the open line is closed at the end. */
  method WrapSpans(spans: seq<string>, width: string -> nat, maxWidth: int) returns (lines: seq<Line>)
    ensures Wrapped(lines, spans, width, maxWidth)
    ensures |lines| <= |spans|
  {
    var closed: seq<Line> := [];
    var current: Line := [];
    var i := 0;
    while i < |spans|
      invariant 0 <= i <= |spans|
      invariant Run(closed, current, spans[i..], width, maxWidth) == Run([], [], spans, width, maxWidth)
    {
      assert spans[i..][1..] == spans[i + 1..];
      var (nextClosed, nextCurrent) := Step(closed, current, spans[i], width, maxWidth);
      closed, current := nextClosed, nextCurrent;
      i := i + 1;
    }
    assert spans[i..] == [];
    assert spans[..0] == [];
    RunBuilds([], [], spans, 0, width, maxWidth);
    assert spans[0..] == spans;
    CloseWraps(closed, current, spans, width, maxWidth);
    lines := Close(closed, current);
  }

  /** The width of a line's first `n + 1` spans, when `n + 1` of them were measured together, fit. */
  lemma PrefixFits(line: Line, n: nat, width: string -> nat, maxWidth: int)
    requires PrefixesFit(line, width, maxWidth)
    requires 1 <= n < |line|
    ensures width(Concat(line[..n]) + line[n]) <= maxWidth
  {
    assert line[..n + 1] == line[..n] + [line[n]];
    ConcatAppend(line[..n], [line[n]]);
    assert Concat([line[n]]) == line[n];
  }

  lemma WrappedTail(a: seq<Line>, spans: seq<string>, width: string -> nat, maxWidth: int)
    requires Wrapped(a, spans, width, maxWidth)
    requires |a| > 0
    ensures spans == a[0] + spans[|a[0]|..]
    ensures Wrapped(a[1..], spans[|a[0]|..], width, maxWidth)
  {
  }

  /** In a greedy wrapping with more than one line, the second line starts with the span
      right after the first line, and the first line cannot take it. */
  lemma SecondLineOverflows(a: seq<Line>, spans: seq<string>, width: string -> nat, maxWidth: int)
    requires Wrapped(a, spans, width, maxWidth)
    requires |a| > 0 && |a[0]| < |spans|
    ensures width(Concat(a[0]) + spans[|a[0]|]) > maxWidth
  {
    WrappedTail(a, spans, width, maxWidth);
    assert |Flatten(a[1..])| > 0;
    assert |a| > 1;
    assert Flatten(a[1..]) == a[1] + Flatten(a[2..]);
    assert spans[|a[0]|] == a[1][0];
  }

  /** Two greedy wrappings of the same spans agree on the first line's length. */
  lemma FirstLineNotShorter(a: seq<Line>, b: seq<Line>, spans: seq<string>, width: string -> nat, maxWidth: int)
    requires Wrapped(a, spans, width, maxWidth)
    requires Wrapped(b, spans, width, maxWidth)
    requires |a| > 0 && |b| > 0
    ensures |a[0]| >= |b[0]|
  {
    var n, m := |a[0]|, |b[0]|;
    WrappedTail(a, spans, width, maxWidth);
    WrappedTail(b, spans, width, maxWidth);
    if n < m {
      assert b[0][..n] == a[0] && b[0][n] == spans[n];
      PrefixFits(b[0], n, width, maxWidth);
      SecondLineOverflows(a, spans, width, maxWidth);
      assert false;
    }
  }

  /** A greedy wrapping is unique: the properties of `Wrapped` determine the lines. */
  lemma {:induction false} WrappedUnique(a: seq<Line>, b: seq<Line>, spans: seq<string>, width: string -> nat, maxWidth: int)
    requires Wrapped(a, spans, width, maxWidth)
    requires Wrapped(b, spans, width, maxWidth)
    ensures a == b
    decreases |spans|
  {
    FlattenEmpty(a);
    FlattenEmpty(b);
    if |spans| > 0 {
      assert |a| > 0 && |b| > 0;
      FirstLineNotShorter(a, b, spans, width, maxWidth);
      FirstLineNotShorter(b, a, spans, width, maxWidth);
      WrappedTail(a, spans, width, maxWidth);
      WrappedTail(b, spans, width, maxWidth);
      var n := |a[0]|;
      assert a[0] == spans[..n] == b[0];
      WrappedUnique(a[1..], b[1..], spans[n..], width, maxWidth);
      assert a == [a[0]] + a[1..];
      assert b == [b[0]] + b[1..];
    }
  }
}

=== FILE: tech_stack.dfy ===
/**
 * The tech-stack section: the edge fades of its marquees, the duplicated
 * client list that makes a marquee loop seamlessly, the two desktop columns
 * fed from alternate entries, and the mobile marquee whose direction follows
 * the language.
 */
module TechStack {
  import Language
  import opened Wrappers

  /** The edge of a marquee that a fade overlay sits on. */
  datatype Side = Left | Right | Top | Bottom

  function Opposite(s: Side): Side
  {
    match s
    case Left => Right
    case Right => Left
    case Top => Bottom
    case Bottom => Top
  }

  function SideName(s: Side): string
  {
    match s
    case Left => "left"
    case Right => "right"
    case Top => "top"
    case Bottom => "bottom"
  }

  /** The panel colour the fades start from. */
  const FadeBase: string := "rgba(10, 52, 63, 0.92)"

  /** The CSS direction of a fade: from the edge towards the opposite edge. */
  function GradientDirection(s: Side): (r: string)
    ensures r == "to " + SideName(Opposite(s))
  {
    match s
    case Left => "to right"
    case Right => "to left"
    case Top => "to bottom"
    case Bottom => "to top"
  }

  /** What follows the direction in every fade: the panel colour, then transparency. */
  const FadeStops: string := ", " + FadeBase + ", transparent)"

  /** The CSS `linear-gradient` of a fade running in `direction`. */
  function FadeCss(direction: string): string
  {
    "linear-gradient(" + direction + FadeStops
  }

  /** `fadeGradient`: panel colour at the given edge, fading to transparent towards the opposite edge. */
  function FadeGradient(s: Side): (r: string)
    ensures r == FadeCss("to " + SideName(Opposite(s)))
  {
    FadeCss(GradientDirection(s))
  }

  /** Each edge gets its own gradient. */
  lemma FadeGradientInjective(a: Side, b: Side)
    ensures FadeGradient(a) == FadeGradient(b) ==> a == b
  {
  }

  /** A logo card of the marquee. */
  datatype Client = Client(name: string, image: string)

  const Clients: seq<Client> := [
    Client("Next.js", "/tech/nextjs-icon.png"),
    Client("Python", "/tech/python-logo.avif"),
    Client("Node.js", "/tech/nod.png"),
    Client("GitHub", "/tech/github-logo.png"),
    Client("WordPress", "/tech/wp.png"),
    Client("Sitecore", "/tech/Sitecore-LOGO.png"),
    Client("Umbraco", "/tech/umbraco.avif"),
    Client("Wagtail", "/tech/Wagtail-2.png"),
    Client("Cloudflare", "/tech/cloudflare-logo.avif"),
    Client("OpenAI", "/tech/open-ai.png"),
    Client("Bard AI", "/tech/bard-ai.avif")
  ]

  /** `[...xs, ...xs]`: the list twice over, so that the second half continues the first. */
  function Duplicate<T>(xs: seq<T>): (r: seq<T>)
    ensures |r| == 2 * |xs|
    ensures r[..|xs|] == xs && r[|xs|..] == xs
    ensures multiset(r) == multiset(xs) + multiset(xs)
  {
    xs + xs
  }

  /** `filter((_, i) => i % 2 === 0)`: the entries at even positions, in order. */
  function Evens<T>(s: seq<T>): (r: seq<T>)
    ensures |r| == (|s| + 1) / 2
    ensures forall k :: 0 <= k < |r| ==> r[k] == s[2 * k]
    decreases |s|
  {
    if |s| == 0 then [] else [s[0]] + Odds(s[1..])
  }

  /** `filter((_, i) => i % 2 === 1)`: the entries at odd positions, in order. */
  function Odds<T>(s: seq<T>): (r: seq<T>)
    ensures |r| == |s| / 2
    ensures forall k :: 0 <= k < |r| ==> r[k] == s[2 * k + 1]
    decreases |s|
  {
    if |s| == 0 then [] else Evens(s[1..])
  }

  /** Deals two lists out alternately, starting with the first. */
  function Interleave<T>(a: seq<T>, b: seq<T>): seq<T>
    requires |b| <= |a| <= |b| + 1
    decreases |a| + |b|
  {
    if |a| == 0 then [] else [a[0]] + Interleave(b, a[1..])
  }

  /** Dealing the two filters' results out alternately gives the list back: nothing is
      lost, shared or moved. */
  lemma {:induction false} InterleaveEvensOdds<T>(s: seq<T>)
    ensures Interleave(Evens(s), Odds(s)) == s
    decreases |s|
  {
    if |s| > 0 {
      InterleaveEvensOdds(s[1..]);
      assert Evens(s) == [s[0]] + Odds(s[1..]);
      assert Odds(s) == Evens(s[1..]);
      assert s == [s[0]] + s[1..];
    }
  }

  /** Between them, the two filters hold every entry of the list as often as the list does. */
  lemma {:induction false} EvensOddsMultiset<T>(s: seq<T>)
    ensures multiset(Evens(s)) + multiset(Odds(s)) == multiset(s)
    decreases |s|
  {
    if |s| > 0 {
      EvensOddsMultiset(s[1..]);
      assert Evens(s) == [s[0]] + Odds(s[1..]);
      assert Odds(s) == Evens(s[1..]);
      assert s == [s[0]] + s[1..];
    }
  }

  /** Putting an entry in front swaps the roles of the two filters on the rest. */
  lemma Cons<T>(x: T, s: seq<T>)
    ensures Evens([x] + s) == [x] + Odds(s)
    ensures Odds([x] + s) == Evens(s)
  {
    assert ([x] + s)[1..] == s;
  }

  /** How the filters of a concatenation follow from the filters of its parts. */
  lemma EvensAppend<T>(s: seq<T>, t: seq<T>)
    ensures |s| % 2 == 0 ==> Evens(s + t) == Evens(s) + Evens(t)
    ensures |s| % 2 == 1 ==> Evens(s + t) == Evens(s) + Odds(t)
    ensures |s| % 2 == 0 ==> Odds(s + t) == Odds(s) + Odds(t)
    ensures |s| % 2 == 1 ==> Odds(s + t) == Odds(s) + Evens(t)
  {
    if |s| % 2 == 0 {
      AppendEvenLength(s, t);
    } else {
      AppendOddLength(s, t);
    }
  }

  lemma {:induction false} AppendEvenLength<T>(s: seq<T>, t: seq<T>)
    requires |s| % 2 == 0
    ensures Evens(s + t) == Evens(s) + Evens(t)
    ensures Odds(s + t) == Odds(s) + Odds(t)
    decreases |s|
  {
    if |s| > 0 {
      var x, rest := s[0], s[1..];
      AppendOddLength(rest, t);
      assert s == [x] + rest;
      assert s + t == [x] + (rest + t);
      Cons(x, rest);
      Cons(x, rest + t);
      assert [x] + (Odds(rest) + Evens(t)) == ([x] + Odds(rest)) + Evens(t);
    } else {
      assert s + t == t;
    }
  }

  lemma {:induction false} AppendOddLength<T>(s: seq<T>, t: seq<T>)
    requires |s| % 2 == 1
    ensures Evens(s + t) == Evens(s) + Odds(t)
    ensures Odds(s + t) == Odds(s) + Evens(t)
    decreases |s|
  {
    var x, rest := s[0], s[1..];
    AppendEvenLength(rest, t);
    assert s == [x] + rest;
    assert s + t == [x] + (rest + t);
    Cons(x, rest);
    Cons(x, rest + t);
    assert [x] + (Odds(rest) + Odds(t)) == ([x] + Odds(rest)) + Odds(t);
  }

  /** The two desktop columns: alternate entries of the duplicated list, itself doubled. */
  function Columns<T>(clients: seq<T>): (r: (seq<T>, seq<T>))
    ensures |r.0| == 2 * |clients| && |r.1| == 2 * |clients|
    ensures multiset(r.0) + multiset(r.1) == multiset(Duplicate(Duplicate(clients)))
  {
    var all := Duplicate(Duplicate(clients));
    EvensOddsMultiset(all);
    (Evens(all), Odds(all))
  }

  /** With an odd number of entries, either filter of the list twice over holds every entry once. */
  lemma OddDuplicateSplits<T>(clients: seq<T>)
    requires |clients| % 2 == 1
    ensures multiset(Evens(Duplicate(clients))) == multiset(clients)
    ensures multiset(Odds(Duplicate(clients))) == multiset(clients)
  {
    EvensAppend(clients, clients);
    EvensOddsMultiset(clients);
  }

  /** With an odd number of clients, each column shows every client exactly twice. */
  lemma {:induction false} ColumnsShowEveryClientTwice<T>(clients: seq<T>)
    requires |clients| % 2 == 1
    ensures multiset(Columns(clients).0) == multiset(clients) + multiset(clients)
    ensures multiset(Columns(clients).1) == multiset(clients) + multiset(clients)
  {
    var dup := Duplicate(clients);
    OddDuplicateSplits(clients);
    EvensAppend(dup, dup);
    assert Columns(clients).0 == Evens(dup) + Evens(dup);
    assert Columns(clients).1 == Odds(dup) + Odds(dup);
  }

  /** The site's eleven clients are an odd number, so both columns carry every logo. */
  lemma SiteColumnsShowEveryClient()
    ensures multiset(Columns(Clients).0) == multiset(Clients) + multiset(Clients)
    ensures multiset(Columns(Clients).1) == multiset(Clients) + multiset(Clients)
  {
    assert |Clients| == 11;
    ColumnsShowEveryClientTwice(Clients);
  }

  /** An animation keyframe for `x`: a bare number (pixels) or a percentage. */
  datatype Offset = Px(px: int) | Percent(pct: int)

  /** The offset as a percentage of the moving element's own width, when it can be read as
      one (0 px is 0%). */
  function AsPercent(o: Offset): Option<int>
  {
    match o
    case Percent(p) => Some(p)
    case Px(n) => if n == 0 then Some(0) else None
  }

  /** The start and end keyframes of a marquee. */
  datatype Keyframes = Keyframes(from: Offset, to: Offset)

  /** The mobile marquee's `x` keyframes. */
  function MobileMarquee(l: Language.Lang): (k: Keyframes)
    ensures AsPercent(k.from) == Some(0)
    ensures AsPercent(k.to).Some?
    ensures l == Language.Ar ==> AsPercent(k.to).value == 50
    ensures l != Language.Ar ==> AsPercent(k.to).value == -50
  {
    if l == Language.Ar then Keyframes(Px(0), Percent(50)) else Keyframes(Percent(0), Percent(-50))
  }

  /** How far, in percent of the moving element's own width, the marquee travels in one loop. */
  function Travel(k: Keyframes): int
    requires AsPercent(k.from).Some? && AsPercent(k.to).Some?
  {
    AsPercent(k.to).value - AsPercent(k.from).value
  }

  /** The marquee always travels half of its own width, towards the right exactly when the
      document is right-to-left, and switching the language reverses its direction. */
  lemma MarqueeFlipsWithLanguage(l: Language.Lang)
    ensures Travel(MobileMarquee(l)) == 50 || Travel(MobileMarquee(l)) == -50
    ensures Travel(MobileMarquee(Language.Toggle(l))) == -Travel(MobileMarquee(l))
    ensures Travel(MobileMarquee(l)) > 0 <==> Language.DirOf(l) == Language.Rtl
  {
  }
}

=== FILE: wrappers.dfy ===
/** Failure-carrying result types shared by the other modules. */
module Wrappers {

  /** A value that may be absent (a `null`/`undefined` in the site's code). */
  datatype Option<+T> = None | Some(value: T)

  /** The outcome of an operation that can throw: a value or an error message. */
  datatype Result<+R> = Success(value: R) | Failure(error: string)
}
